=== FILE: README.md ===
# BrightMind request builder and model-reply cleanup, in Dafny

This project models two small pieces of pure string logic from BrightMind, an
educational-content application with a Next.js frontend and a Django backend.

- **Request builder** (`frontend/src/utils/api.ts`). The API base URL is
  `NEXT_PUBLIC_API_URL` when that is set and non-empty. Otherwise it is the
  fixed address `https://brightmind-deployable.onrender.com`. `getApiUrl`
  appends a path to the base and makes sure the path has exactly one leading
  `/`. `createHeaders` always declares a JSON content type. It adds a bearer
  `Authorization` entry only for a truthy token.
- **Content generator** (`backend/content_generation/content_generation.py`).
  The model's replies are cleaned of Markdown code fences. That cleanup is
  written twice in the source. Here it is one function, `CleanFence`.
  When the topic analysis fails, a fixed fallback analysis is used. The
  content is requested at the difficulty the analysis recommends. Every
  failure becomes the message of one `ValueError`.

The model has four modules, one per file:

- `Wrappers` (`wrappers.dfy`): `Option` and `Result`.
- `Text` (`text.dfy`): the Python string operations the cleanup uses.
  These are `str.isspace`, `strip`, `startswith`, `endswith`,
  `split(sep, 1)` and `rsplit(sep, 1)`, on `seq<char>`.
- `Api` (`api.dfy`): the request builder.
- `ContentGeneration` (`content_generation.dfy`): the reply cleanup, the
  analysis fallback, difficulty adoption and error messages.

Things outside the model are passed in as parameters:

- The environment variable is an `Option<string>`.
- The reply to the analysis request is a `Result<string, string>`. It holds
  either the reply text or the message of the exception the call raised.
- The reply to the content request is a `Result<string, ErrorKind>`. It
  holds either the reply text or the class and text of the exception the
  call raised. The class matters, because it selects the final message.
- Parsing the analysis JSON is a function `string -> Option<Analysis>`.
- `json.loads`, the `ContentResponse` schema check and the `fix_content`
  repair call are together one function `string -> Result<C, ErrorKind>`.

## Model

| member | source | states |
|---|---|---|
| `Api.ApiUrl` | frontend/src/utils/api.ts:7-8 | The base URL is the environment value when that is present and non-empty. Otherwise it is exactly `https://brightmind-deployable.onrender.com`. It is never empty. |
| `Api.ApiUrlStable` | frontend/src/utils/api.ts:7-8 | Setting the variable to the base URL already in use selects that same base. |
| `Api.NormalizePath` | frontend/src/utils/api.ts:17 | The normalised path always starts with `/`. A path that already starts with `/` is kept as is. Any other path, `""` included, gets one `/` in front. |
| `Api.GetApiUrl` | frontend/src/utils/api.ts:15-19 | The URL starts with the base URL. What follows the base is exactly the normalised path. |
| `Api.GetApiUrlKeepsLeadingSlash` | frontend/src/utils/api.ts:17-18 | For a path starting with `/`, the URL is the base followed by the path, with no extra slash. |
| `Api.GetApiUrlAddsOneSlash` | frontend/src/utils/api.ts:17-18 | For a path not starting with `/`, the URL is the base, one `/`, then the path. This includes the empty path. |
| `Api.GetApiUrlSlashOptional` | frontend/src/utils/api.ts:17 | `p` and `"/" + p` give the same URL when `p` does not start with `/`. |
| `Api.GetApiUrlInjective` | frontend/src/utils/api.ts:15-19 | Two paths give the same URL if and only if they normalise to the same path. |
| `Api.CreateHeaders` | frontend/src/utils/api.ts:26-36 | `Content-Type` always maps to `application/json`. `Authorization` is present if and only if the token is present and non-empty, and then it is exactly `"Bearer " + token`. No other key appears. Without a truthy token the map is exactly the one Content-Type entry. |
| `Api.CreateHeadersBearerRoundTrip` | frontend/src/utils/api.ts:31-33 | Reading the bearer value back from the headers gives the token passed in when it is truthy, and no token otherwise. |
| `Api.CreateHeadersSize` | frontend/src/utils/api.ts:27-35 | The map has two entries with a truthy token and one without. |
| `Text.Strip` | backend/content_generation/content_generation.py:60 | The result neither starts nor ends with a Python whitespace character. It is no longer than the input. |
| `Text.StripSplits` | backend/content_generation/content_generation.py:74 | `strip` removes only whitespace: the input is the result with an all-whitespace prefix and an all-whitespace suffix. |
| `Text.StripUnique` | backend/content_generation/content_generation.py:74 | Surround any string that has no whitespace at either end with whitespace, and `strip` gives that string back. |
| `Text.StripIdempotent` | backend/content_generation/content_generation.py:150 | Stripping twice is the same as stripping once. |
| `Text.SplitOnce` | backend/content_generation/content_generation.py:67 | `split(sep, 1)` gives one part when `sep` does not occur. Otherwise it gives the text before and after the first occurrence, and they rebuild the input. When the input starts with `sep`, the parts are `""` and the rest. |
| `Text.RSplitOnce` | backend/content_generation/content_generation.py:71 | `rsplit(sep, 1)` gives one part when `sep` does not occur. Otherwise it gives the text around the last occurrence, and they rebuild the input. When the input ends with `sep`, the parts are everything before that `sep`, then `""`. |
| `ContentGeneration.DropOpening` | backend/content_generation/content_generation.py:66-69 | A guarded `split(marker, 1)[1]` drops the marker when the text starts with it. Otherwise it leaves the text unchanged. |
| `ContentGeneration.DropClosing` | backend/content_generation/content_generation.py:70-71 | A guarded `rsplit(marker, 1)[0]` drops the marker when the text ends with it. Otherwise it leaves the text unchanged. |
| `ContentGeneration.CleanFence` | backend/content_generation/content_generation.py:60-74 | The cleaned reply has no whitespace at either end. It is never longer than the stripped reply. |
| `ContentGeneration.CleanFenceUnfenced` | backend/content_generation/content_generation.py:158-166 | If the stripped reply neither starts nor ends with a fence, cleaning only strips it. Fences in the middle are left alone. |
| `ContentGeneration.CleanFencePlainBlock` | backend/content_generation/content_generation.py:68-74 | Cleaning ```` ```b``` ```` gives `strip(b)` whenever `b` does not start with `json`. |
| `ContentGeneration.CleanFenceJsonBlock` | backend/content_generation/content_generation.py:66-74 | Cleaning ```` ```jsonb``` ```` gives `strip(b)` whenever `b` does not start with a fence. |
| `ContentGeneration.FencedBodyRecovered` | backend/content_generation/content_generation.py:68-71 | After the JSON marker is dropped, the next two checks (two separate `if`s) give back exactly the body. This also holds when the body is one or two backticks. |
| `ContentGeneration.AnalyzeTopic` | backend/content_generation/content_generation.py:57-90 | When the model call succeeds and its cleaned reply parses, the result is the parsed analysis. If the call raised or the reply did not parse, the result keeps the current difficulty. Its sections are then exactly Introduction, Core Concepts, Applications and Conclusion. Its key concepts are exactly `"Important aspects of " + topic`. |
| `ContentGeneration.AdoptDifficulty` | backend/content_generation/content_generation.py:101-104 | With a `recommended_difficulty` key, the difficulty becomes its value. Without one, the difficulty is unchanged. |
| `ContentGeneration.RequestDifficulty` | backend/content_generation/content_generation.py:96-110 | After a failed analysis the content is requested at the caller's own difficulty. After a successful one it is requested at the recommended difficulty, or at the caller's when none is recommended. |
| `ContentGeneration.ErrorMessage` | backend/content_generation/content_generation.py:248-253 | A JSON decode error becomes `Failed to parse model response as JSON`. A validation error becomes `Content validation failed: ` plus its text. Any other error becomes `Content generation failed: ` plus its text. |
| `ContentGeneration.ErrorMessageInjective` | backend/content_generation/content_generation.py:248-253 | Equal messages come from the same kind of error. For validation and other errors they also come from the same text. |
| `ContentGeneration.RequestKeyConcepts` | backend/content_generation/content_generation.py:98-127 | After a failed analysis the prompt lists exactly the one concept `"Important aspects of " + topic`. After a successful one it lists the analysis's key concepts, or none when the key is missing. |
| `ContentGeneration.ContentReply` | backend/content_generation/content_generation.py:98-147 | After a failed analysis the model is asked with the caller's own difficulty and the fallback concept. After a successful one it is asked with the recommended difficulty (or the caller's, when none is recommended) and the analysis's key concepts. |
| `ContentGeneration.GenerateContent` | backend/content_generation/content_generation.py:92-185 | Content only ever comes from decoding the cleaned reply to the content request. An exception raised by the content call propagates with its class and text. For a successful content call, `ForTopicDecodesCleanedReply` shows the result is what decoding the cleaned reply gives. `GenerateContentUnfenced`, `GenerateContentPlainBlock` and `GenerateContentJsonBlock` show the same for the three reply shapes. |
| `ContentGeneration.GenerateContentJsonBlock` | backend/content_generation/content_generation.py:150-174 | For any analysis outcome, if the content reply is ```` ```jsonb``` ````, the result is what decoding `strip(b)` gives. This holds whenever `b` does not start with a fence. |
| `ContentGeneration.GenerateContentPlainBlock` | backend/content_generation/content_generation.py:150-174 | For any analysis outcome, if the content reply is ```` ```b``` ````, the result is what decoding `strip(b)` gives. This holds whenever `b` does not start with `json`. |
| `ContentGeneration.GenerateContentUnfenced` | backend/content_generation/content_generation.py:150-170 | A content reply that, once stripped, neither opens nor closes with a fence is decoded merely stripped. |
| `ContentGeneration.GenerateContentForTopic` | backend/content_generation/content_generation.py:240-253 | Every failure message is the fixed JSON message or starts with `Content validation failed: ` or `Content generation failed: `. The result is a success exactly when generation succeeds, and then it holds the generated content. |
| `ContentGeneration.ErrorMessageForms` | backend/content_generation/content_generation.py:248-253 | Every message is the fixed JSON text or starts with one of the two prefixes. |
| `ContentGeneration.ForTopicModelCallRaises` | backend/content_generation/content_generation.py:240-253 | If the content call raises, the caller gets the message that the exception's class selects. For any class other than the JSON decode and validation errors, that is exactly `Content generation failed: ` followed by the exception's text. |
| `ContentGeneration.ForTopicPassesContent` | backend/content_generation/content_generation.py:240-246 | Content that generation produced reaches the caller unchanged. |
| `ContentGeneration.ForTopicOtherDecodeError` | backend/content_generation/content_generation.py:168-253 | A decoding failure of neither named class, such as a non-object JSON value, gives exactly `Content generation failed: ` followed by its text. |
| `ContentGeneration.ForTopicDecodesCleanedReply` | backend/content_generation/content_generation.py:150-253 | When the content call succeeds with `text`, the caller gets the content decoded from the cleaned `text`, or the message of the decoding error. |
| `ContentGeneration.ForTopicJsonDecodeError` | backend/content_generation/content_generation.py:240-249 | If the cleaned reply does not decode as JSON, the caller gets exactly `Failed to parse model response as JSON`, whatever the decoder's detail. |
| `ContentGeneration.ForTopicValidationError` | backend/content_generation/content_generation.py:179-251 | A first validation failure calls the repair instead of raising. If decoding, including that repair, ends in a validation error with text `v`, the caller gets exactly `Content validation failed: ` followed by `v`. |
| `ContentGeneration.ForTopicAfterFailedAnalysis` | backend/content_generation/content_generation.py:78-110 | A failed analysis never becomes an error itself. With a JSON code block as the reply to the fallback request, the caller gets what decoding the block's stripped body gives, with any error turned into its message. |

## Left out

- The calls to the Gemini language model, the prompt texts and the generation settings are left out. These are foreign network calls. A reply is a parameter. The analysis reply either carries text or carries the message of what was raised. The content reply either carries text or carries the raised exception's kind and text. The content request is a function of the topic and of the difficulty and key concepts from the analysis. Those are the prompt's only inputs besides fixed text.
- Constructing `genai.GenerativeModel` is left out. In `analyze_topic` this happens before the `try`. If it raised there, the error would not lead to the fallback analysis. It would propagate, and its class would select the caller's message. The model assumes construction succeeds.
- `json.loads`, the Pydantic `ContentResponse` schema and `fix_content` are library code or another model call. They are one abstract decoding parameter that may fail with any of the three error kinds. `fix_content` parses the raw reply without the fence cleanup, so there is nothing of it to model.
- Reading `process.env` and `os.getenv` is left out. The environment value is a parameter.
- `print` diagnostics and the commented-out debug output are left out. They have no effect on results.
- The Python default arguments (`difficulty="intermediate"` for the generator, `"beginner"` for `generate_content_for_topic`) and the model name are left out. Callers pass the difficulty explicitly.
- The generator's mutable state is left out. `generate_content` assigns `self.difficulty` when it adopts the recommended difficulty, and that assignment stays on the generator object. The model returns the difficulty as a value and keeps no updated generator. Only a reused generator could observe the change, and `generate_content_for_topic` builds a fresh one for every call.
- `model_dump()` is left out. The content type is a type parameter and is returned unchanged.
- Header order is left out. A JavaScript object keeps insertion order, but a Dafny `map` has no order. Request headers are unordered in meaning.
- ContentGeneration.AnalyzeTopic: the parsed analysis is a record whose fields hold strings. A reply whose JSON is not an object, or whose `recommended_difficulty` is `null` or not a string, is not modelled. In the source, a non-string `recommended_difficulty` would be adopted as the difficulty as it is. For a JSON number, boolean or `null`, the `in` test raises a `TypeError`. For a list or a string, `.get` raises an `AttributeError`. Either way the error propagates and the caller gets `Content generation failed: ` followed by its text.
- The login page (`frontend/src/app/(auth)/login/page.tsx`) is not part of this model. That covers its token-alias lookup, session hand-off and loading flag. It only calls the request builder modelled here.
- `backend/chatbot/views.py`, `backend/chatbot/utils.py`, `backend/chatbot/urls.py` and `frontend/next.config.ts` are not part of this model. They are Django request plumbing with event-loop retries, another set of language-model calls, a routing table and build configuration.
- The fallback base URL is used both when the variable is unset and when it is empty, because the code uses JavaScript's `||`.

=== FILE: api.dfy ===
/** The frontend's request builder (`frontend/src/utils/api.ts`): the
    base-URL fallback, endpoint construction and the default request
    headers. The environment variable is passed in rather than read. */
module Api {
  import opened Wrappers
  import opened Text

  /** The address used when `NEXT_PUBLIC_API_URL` is unset or empty. */
  const DefaultApiUrl: string := "https://brightmind-deployable.onrender.com"

  const ContentTypeHeader: string := "Content-Type"
  const JsonMediaType: string := "application/json"
  const AuthorizationHeader: string := "Authorization"
  const BearerScheme: string := "Bearer "

  /** `process.env.NEXT_PUBLIC_API_URL || default`: JavaScript's `||` falls
      through on both `undefined` and the empty string. */
  function ApiUrl(env: Option<string>): (base: string)
    ensures base != []
    ensures env.Some? && env.value != [] ==> base == env.value
    ensures env.None? || env.value == [] ==> base == DefaultApiUrl
  {
    match env
    case Some(v) => if v != [] then v else DefaultApiUrl
    case None => DefaultApiUrl
  }

  /** Configuring the resolved base URL explicitly selects that same base:
      the fallback is a fixed point of the selection. */
  lemma ApiUrlStable(env: Option<string>)
    ensures ApiUrl(Some(ApiUrl(env))) == ApiUrl(env)
  {
  }

  /** The path with exactly the `/` in front that `getApiUrl` guarantees. */
  function NormalizePath(path: string): (p: string)
    ensures StartsWith(p, "/")
    ensures StartsWith(path, "/") ==> p == path
    ensures !StartsWith(path, "/") ==> p == "/" + path
  {
    if StartsWith(path, "/") then path else "/" + path
  }

  /** `getApiUrl(path)`: the base URL followed by the normalised path. */
  function GetApiUrl(env: Option<string>, path: string): (url: string)
    ensures StartsWith(url, ApiUrl(env))
    ensures url[|ApiUrl(env)|..] == NormalizePath(path)
    ensures |url| == |ApiUrl(env)| + |NormalizePath(path)|
  {
    ApiUrl(env) + NormalizePath(path)
  }

  /** A path that already begins with `/` is appended unchanged: no second
      slash is introduced. */
  lemma GetApiUrlKeepsLeadingSlash(env: Option<string>, path: string)
    requires StartsWith(path, "/")
    ensures GetApiUrl(env, path) == ApiUrl(env) + path
  {
  }

  /** Any other path, the empty one included, gets exactly one `/`. */
  lemma GetApiUrlAddsOneSlash(env: Option<string>, path: string)
    requires !StartsWith(path, "/")
    ensures GetApiUrl(env, path) == ApiUrl(env) + "/" + path
  {
    assert ApiUrl(env) + ("/" + path) == ApiUrl(env) + "/" + path;
  }

  /** Writing the leading slash or leaving it out names the same endpoint. */
  lemma GetApiUrlSlashOptional(env: Option<string>, path: string)
    requires !StartsWith(path, "/")
    ensures GetApiUrl(env, path) == GetApiUrl(env, "/" + path)
  {
    assert StartsWith("/" + path, "/");
  }

  /** Two paths give the same URL exactly when they normalise to the same
      path: the base URL never absorbs part of the path. */
  lemma GetApiUrlInjective(env: Option<string>, p: string, q: string)
    ensures GetApiUrl(env, p) == GetApiUrl(env, q) <==> NormalizePath(p) == NormalizePath(q)
  {
    var u, v := GetApiUrl(env, p), GetApiUrl(env, q);
    if u == v {
      assert NormalizePath(p) == u[|ApiUrl(env)|..] == v[|ApiUrl(env)|..] == NormalizePath(q);
    }
  }

  /** A token is sent only when JavaScript finds it truthy: present (neither
      `undefined` nor `null`) and not the empty string. */
  predicate Truthy(token: Option<string>) {
    token.Some? && token.value != []
  }

  /** `createHeaders(token)`: always the JSON content type, plus a bearer
      `Authorization` entry for a truthy token, and nothing else. */
  function CreateHeaders(token: Option<string>): (h: map<string, string>)
    ensures ContentTypeHeader in h && h[ContentTypeHeader] == JsonMediaType
    ensures AuthorizationHeader in h <==> Truthy(token)
    ensures AuthorizationHeader in h ==> h[AuthorizationHeader] == BearerScheme + token.value
    ensures h.Keys <= {ContentTypeHeader, AuthorizationHeader}
    ensures !Truthy(token) ==> h == map[ContentTypeHeader := JsonMediaType]
  {
    var headers := map[ContentTypeHeader := JsonMediaType];
    if Truthy(token) then headers[AuthorizationHeader := BearerScheme + token.value] else headers
  }

  /** The token a receiver reads back from a bearer `Authorization` header. */
  function BearerToken(h: map<string, string>): (t: Option<string>)
    ensures t.Some? <==> AuthorizationHeader in h && StartsWith(h[AuthorizationHeader], BearerScheme)
    ensures t.Some? ==> h[AuthorizationHeader] == BearerScheme + t.value
  {
    if AuthorizationHeader in h && StartsWith(h[AuthorizationHeader], BearerScheme) then
      var v := h[AuthorizationHeader];
      assert v == BearerScheme + v[|BearerScheme|..];
      Some(v[|BearerScheme|..])
    else
      None
  }

  /** The headers carry exactly the truthy token: reading the bearer value
      back gives the token that was passed, and no token otherwise. */
  lemma CreateHeadersBearerRoundTrip(token: Option<string>)
    ensures BearerToken(CreateHeaders(token)) == (if Truthy(token) then token else None)
  {
    if Truthy(token) {
      var v := BearerScheme + token.value;
      assert StartsWith(v, BearerScheme);
      assert v[|BearerScheme|..] == token.value;
    }
  }

  /** One entry without a truthy token, two with one. */
  lemma CreateHeadersSize(token: Option<string>)
    ensures |CreateHeaders(token)| == if Truthy(token) then 2 else 1
  {
    var h := CreateHeaders(token);
    if Truthy(token) {
      assert ContentTypeHeader != AuthorizationHeader;
      assert h.Keys == {ContentTypeHeader, AuthorizationHeader};
    } else {
      assert h.Keys == {ContentTypeHeader};
    }
  }
}

=== FILE: content_generation.dfy ===
/** The deterministic part of the backend's content generator
    (`backend/content_generation/content_generation.py`): cleaning a model
    reply of Markdown code fences, the fallback topic analysis, adopting the
    recommended difficulty, and turning a failure into the message raised to
    the caller. The language model, `json.loads` and the Pydantic schema are
    parameters: the analysis reply is a string or the message of what was
    raised, the content reply is a string or the class and text of what was
    raised, and parsing is a function that may fail. */
module ContentGeneration {
  import opened Wrappers
  import opened Text

  /** The Markdown code-fence marker. */
  const Fence: string := "```"
  /** The opening fence of a JSON code block. */
  const JsonFence: string := "```json"

  /** `t.split(marker, 1)[1]` guarded by `t.startswith(marker)`: the text
      after an opening marker, or `t` itself when it does not open with one. */
  function DropOpening(t: string, marker: string): (r: string)
    requires |marker| > 0
    ensures StartsWith(t, marker) ==> r == t[|marker|..]
    ensures !StartsWith(t, marker) ==> r == t
  {
    if StartsWith(t, marker) then SplitOnce(t, marker)[1] else t
  }

  /** `t.rsplit(marker, 1)[0]` guarded by `t.endswith(marker)`: the text
      before a closing marker, or `t` itself when it does not close with one. */
  function DropClosing(t: string, marker: string): (r: string)
    requires |marker| > 0
    ensures EndsWith(t, marker) ==> r == t[..|t| - |marker|]
    ensures !EndsWith(t, marker) ==> r == t
  {
    if EndsWith(t, marker) then RSplitOnce(t, marker)[0] else t
  }

  /** Strips whitespace, an opening ```` ```json ````, then an opening
      ```` ``` ````, then a closing ```` ``` ````, and whitespace again. The
      three checks are independent `if`s, each on the text the previous one
      left. The reply to the topic analysis and the reply with the content
      are both cleaned this way. */
  function CleanFence(s: string): (r: string)
    ensures Trimmed(r)
    ensures |r| <= |Strip(s)|
  {
    var t0 := Strip(s);
    var t1 := DropOpening(t0, JsonFence);
    var t2 := DropOpening(t1, Fence);
    var t3 := DropClosing(t2, Fence);
    assert |t3| <= |t2| <= |t1| <= |t0|;
    Strip(t3)
  }

  /** A reply that, once stripped, neither opens nor closes with a fence
      comes out merely stripped: fences inside it are left alone. */
  lemma CleanFenceUnfenced(s: string)
    requires !StartsWith(Strip(s), Fence) && !EndsWith(Strip(s), Fence)
    ensures CleanFence(s) == Strip(s)
  {
    var t := Strip(s);
    JsonFenceOpensFence(t);
    StripIdempotent(s);
    assert DropOpening(t, JsonFence) == t;
    assert DropOpening(t, Fence) == t;
    assert DropClosing(t, Fence) == t;
  }

  /** A JSON fence is in particular a fence. */
  lemma JsonFenceOpensFence(t: string)
    ensures StartsWith(t, JsonFence) ==> StartsWith(t, Fence)
  {
    if StartsWith(t, JsonFence) {
      assert t[..|Fence|] == t[..|JsonFence|][..|Fence|];
    }
  }

  /** A plain fenced block ```` ```b``` ```` yields its stripped body, as
      long as the body does not itself begin with `json` (which would make
      the opening marker a JSON fence). */
  lemma CleanFencePlainBlock(b: string)
    requires !StartsWith(b, "json")
    ensures CleanFence(Fence + b + Fence) == Strip(b)
  {
    var s := Fence + b + Fence;
    assert Trimmed(s);
    PlainBlockNotJson(b);
    var t1 := DropOpening(s, JsonFence);
    assert t1 == s;
    assert StartsWith(s, Fence) && s[|Fence|..] == b + Fence;
    var t2 := DropOpening(t1, Fence);
    assert t2 == b + Fence;
    assert EndsWith(t2, Fence) && t2[..|t2| - |Fence|] == b;
    var t3 := DropClosing(t2, Fence);
    assert t3 == b;
    CleanFenceOfTrimmed(s);
  }

  /** On a text with no surrounding whitespace the first `strip` is a no-op
      and only the marker steps and the final `strip` act. */
  lemma CleanFenceOfTrimmed(s: string)
    requires Trimmed(s)
    ensures CleanFence(s) == Strip(DropClosing(DropOpening(DropOpening(s, JsonFence), Fence), Fence))
  {
    StripTrimmed(s);
  }

  /** The opening of ```` ```b``` ```` is a JSON fence only when `b` begins
      with `json`. */
  lemma PlainBlockNotJson(b: string)
    requires !StartsWith(b, "json")
    ensures !StartsWith(Fence + b + Fence, JsonFence)
  {
    var s := Fence + b + Fence;
    if |s| >= |JsonFence| {
      var k: int;
      if |b| >= 4 {
        assert b[..4] != "json";
        k :| 0 <= k < 4 && b[k] != "json"[k];
      } else {
        k := |b|;
      }
      assert s[3 + k] != JsonFence[3 + k];
      assert s[..|JsonFence|][3 + k] != JsonFence[3 + k];
    }
  }

  /** A JSON block ```` ```jsonb``` ```` yields its stripped body, as long
      as the body does not itself open with a fence. */
  lemma CleanFenceJsonBlock(b: string)
    requires !StartsWith(b, Fence)
    ensures CleanFence(JsonFence + b + Fence) == Strip(b)
  {
    var s := JsonFence + b + Fence;
    assert Trimmed(s);
    assert StartsWith(s, JsonFence) && s[|JsonFence|..] == b + Fence;
    var t1 := DropOpening(s, JsonFence);
    assert t1 == b + Fence;
    FencedBodyRecovered(b);
    CleanFenceOfTrimmed(s);
  }

  /** After the JSON marker, the remaining marker steps return the body:
      either the closing fence alone is dropped, or the body is a run of
      fewer than three backticks that the opening-fence check eats into and
      gives back unchanged. */
  lemma FencedBodyRecovered(b: string)
    requires !StartsWith(b, Fence)
    ensures DropClosing(DropOpening(b + Fence, Fence), Fence) == b
  {
    var t1 := b + Fence;
    if StartsWith(t1, Fence) {
      assert |b| < 3;
      assert forall i :: 0 <= i < |b| ==> b[i] == t1[i] == '`';
      assert t1[|Fence|..] == b;
    } else {
      assert EndsWith(t1, Fence) && t1[..|t1| - |Fence|] == b;
    }
  }

  /** The topic analysis as the model returns it: any of its keys may be
      missing. */
  datatype Analysis = Analysis(
    recommendedDifficulty: Option<string>,
    sections: Option<seq<string>>,
    keyConcepts: Option<seq<string>>)

  /** A generator's state: the topic and the current difficulty level. */
  datatype Generator = Generator(topic: string, difficulty: string)

  /** The analysis used when the model call or the parse fails. */
  function FallbackAnalysis(g: Generator): Analysis {
    Analysis(
      Some(g.difficulty),
      Some(["Introduction", "Core Concepts", "Applications", "Conclusion"]),
      Some(["Important aspects of " + g.topic]))
  }

  /** Whether `analyze_topic` ends in its exception handler: the model call
      raised, or the cleaned reply did not parse. */
  predicate AnalysisFailed(reply: Result<string, string>, parse: string -> Option<Analysis>) {
    reply.Failure? || parse(CleanFence(reply.value)).None?
  }

  /** `analyze_topic`: the parsed, cleaned reply. If the model call raised or
      the reply did not parse, it is instead a record that keeps the current
      difficulty, proposes four generic sections and one key concept about
      the topic. */
  function AnalyzeTopic(g: Generator, reply: Result<string, string>, parse: string -> Option<Analysis>): (a: Analysis)
    ensures !AnalysisFailed(reply, parse) ==> a == parse(CleanFence(reply.value)).value
    ensures AnalysisFailed(reply, parse) ==> a.recommendedDifficulty == Some(g.difficulty)
    ensures AnalysisFailed(reply, parse) ==>
      a.sections == Some(["Introduction", "Core Concepts", "Applications", "Conclusion"])
    ensures AnalysisFailed(reply, parse) ==> a.keyConcepts == Some(["Important aspects of " + g.topic])
  {
    match reply
    case Failure(_) => FallbackAnalysis(g)
    case Success(text) =>
      match parse(CleanFence(text))
      case Some(a) => a
      case None => FallbackAnalysis(g)
  }

  /** The difficulty after `generate_content` has looked at the analysis:
      the recommended one when the key is present, else unchanged. */
  function AdoptDifficulty(current: string, a: Analysis): (d: string)
    ensures a.recommendedDifficulty.Some? ==> d == a.recommendedDifficulty.value
    ensures a.recommendedDifficulty.None? ==> d == current
  {
    a.recommendedDifficulty.GetOr(current)
  }

  /** The difficulty the content request is made at. A failed analysis
      leaves the caller's difficulty in force; a successful one replaces it
      exactly when it recommends one. */
  function RequestDifficulty(g: Generator, reply: Result<string, string>, parse: string -> Option<Analysis>): (d: string)
    ensures AnalysisFailed(reply, parse) ==> d == g.difficulty
    ensures !AnalysisFailed(reply, parse) ==>
      d == parse(CleanFence(reply.value)).value.recommendedDifficulty.GetOr(g.difficulty)
  {
    AdoptDifficulty(g.difficulty, AnalyzeTopic(g, reply, parse))
  }

  /** The kinds of exception `generate_content_for_topic` tells apart, each
      with the text `str(e)` would give. */
  datatype ErrorKind =
    | JsonDecodeError(detail: string)
    | ValidationError(detail: string)
    | OtherError(detail: string)

  const JsonFailureMessage: string := "Failed to parse model response as JSON"
  const ValidationPrefix: string := "Content validation failed: "
  const GenerationPrefix: string := "Content generation failed: "

  /** The message of the `ValueError` raised for each kind of failure: a
      fixed text for a JSON decode error, the validation error's text after
      a prefix, and any other error's text after another prefix. */
  function ErrorMessage(e: ErrorKind): (m: string)
    ensures e.JsonDecodeError? ==> m == "Failed to parse model response as JSON"
    ensures e.ValidationError? ==> m == "Content validation failed: " + e.detail
    ensures e.OtherError? ==> m == "Content generation failed: " + e.detail
  {
    match e
    case JsonDecodeError(_) => JsonFailureMessage
    case ValidationError(msg) => ValidationPrefix + msg
    case OtherError(msg) => GenerationPrefix + msg
  }

  /** The message identifies the failure: equal messages come from the same
      kind with the same text, except that every JSON decode error gives
      the one fixed message. */
  lemma ErrorMessageInjective(a: ErrorKind, b: ErrorKind)
    requires ErrorMessage(a) == ErrorMessage(b)
    ensures a.JsonDecodeError? <==> b.JsonDecodeError?
    ensures !a.JsonDecodeError? ==> a == b
  {
    var m := ErrorMessage(a);
    assert m[0] == ErrorMessage(b)[0];
    assert ErrorMessage(a)[8] == ErrorMessage(b)[8];
    if a.ValidationError? && b.ValidationError? {
      assert a.detail == m[|ValidationPrefix|..] == b.detail;
    } else if a.OtherError? && b.OtherError? {
      assert a.detail == m[|GenerationPrefix|..] == b.detail;
    }
  }

  /** The key concepts the content prompt lists: those of the analysis, or
      none when it has no such key. */
  function RequestKeyConcepts(g: Generator, reply: Result<string, string>, parse: string -> Option<Analysis>): (k: seq<string>)
    ensures AnalysisFailed(reply, parse) ==> k == ["Important aspects of " + g.topic]
    ensures !AnalysisFailed(reply, parse) ==> k == parse(CleanFence(reply.value)).value.keyConcepts.GetOr([])
  {
    AnalyzeTopic(g, reply, parse).keyConcepts.GetOr([])
  }

  /** The model's reply to the content request. The request depends on the
      topic and on the two analysis-derived inputs of the prompt: the
      difficulty and the key concepts. `ask` stands for building the prompt
      from these and calling the model. After a failed analysis the request
      carries the caller's own difficulty and the one fallback concept;
      after a successful one it carries what the analysis says. */
  function ContentReply(
    g: Generator,
    analysisReply: Result<string, string>,
    parseAnalysis: string -> Option<Analysis>,
    ask: (string, string, seq<string>) -> Result<string, ErrorKind>): (reply: Result<string, ErrorKind>)
    ensures AnalysisFailed(analysisReply, parseAnalysis) ==>
      reply == ask(g.topic, g.difficulty, ["Important aspects of " + g.topic])
    ensures !AnalysisFailed(analysisReply, parseAnalysis) ==>
      var a := parseAnalysis(CleanFence(analysisReply.value)).value;
      reply == ask(g.topic, a.recommendedDifficulty.GetOr(g.difficulty), a.keyConcepts.GetOr([]))
  {
    ask(g.topic, RequestDifficulty(g, analysisReply, parseAnalysis), RequestKeyConcepts(g, analysisReply, parseAnalysis))
  }

  /** `generate_content`: analyse the topic, adopt the difficulty, ask the
      model for the content, and decode the cleaned reply. `decode` stands
      for `json.loads`, the schema validation and the repair call made when
      validation fails. Content only ever comes from decoding the cleaned
      reply, and an exception raised by the content call propagates with
      its class and text. */
  function GenerateContent<C>(
    g: Generator,
    analysisReply: Result<string, string>,
    parseAnalysis: string -> Option<Analysis>,
    ask: (string, string, seq<string>) -> Result<string, ErrorKind>,
    decode: string -> Result<C, ErrorKind>): (r: Result<C, ErrorKind>)
    ensures r.Success? ==>
      var reply := ContentReply(g, analysisReply, parseAnalysis, ask);
      reply.Success? && decode(CleanFence(reply.value)) == r
    ensures var reply := ContentReply(g, analysisReply, parseAnalysis, ask);
      reply.Failure? ==> r == Failure(reply.error)
  {
    match ContentReply(g, analysisReply, parseAnalysis, ask)
    case Failure(e) => Failure(e)
    case Success(text) => decode(CleanFence(text))
  }

  /** A content reply that is a JSON code block is decoded from its
      stripped body, whatever the analysis gave. */
  lemma GenerateContentJsonBlock<C>(
    g: Generator,
    analysisReply: Result<string, string>,
    parseAnalysis: string -> Option<Analysis>,
    ask: (string, string, seq<string>) -> Result<string, ErrorKind>,
    decode: string -> Result<C, ErrorKind>,
    b: string)
    requires ContentReply(g, analysisReply, parseAnalysis, ask) == Success(JsonFence + b + Fence)
    requires !StartsWith(b, Fence)
    ensures GenerateContent(g, analysisReply, parseAnalysis, ask, decode) == decode(Strip(b))
  {
    CleanFenceJsonBlock(b);
  }

  /** A content reply that is a plain code block is decoded from its
      stripped body, whatever the analysis gave. */
  lemma GenerateContentPlainBlock<C>(
    g: Generator,
    analysisReply: Result<string, string>,
    parseAnalysis: string -> Option<Analysis>,
    ask: (string, string, seq<string>) -> Result<string, ErrorKind>,
    decode: string -> Result<C, ErrorKind>,
    b: string)
    requires ContentReply(g, analysisReply, parseAnalysis, ask) == Success(Fence + b + Fence)
    requires !StartsWith(b, "json")
    ensures GenerateContent(g, analysisReply, parseAnalysis, ask, decode) == decode(Strip(b))
  {
    CleanFencePlainBlock(b);
  }

  /** A reply without surrounding fences is decoded merely stripped, at
      whatever difficulty and key concepts the analysis led to. */
  lemma GenerateContentUnfenced<C>(
    g: Generator,
    analysisReply: Result<string, string>,
    parseAnalysis: string -> Option<Analysis>,
    ask: (string, string, seq<string>) -> Result<string, ErrorKind>,
    decode: string -> Result<C, ErrorKind>,
    text: string)
    requires ContentReply(g, analysisReply, parseAnalysis, ask) == Success(text)
    requires !StartsWith(Strip(text), Fence) && !EndsWith(Strip(text), Fence)
    ensures GenerateContent(g, analysisReply, parseAnalysis, ask, decode) == decode(Strip(text))
  {
    CleanFenceUnfenced(text);
  }

  /** `generate_content_for_topic`: the generated content, or the message of
      the `ValueError` that replaces whatever was raised. Every failure
      message has one of the three forms, and the content is passed on
      unchanged exactly when generation succeeds. */
  function GenerateContentForTopic<C>(
    topic: string,
    difficulty: string,
    analysisReply: Result<string, string>,
    parseAnalysis: string -> Option<Analysis>,
    ask: (string, string, seq<string>) -> Result<string, ErrorKind>,
    decode: string -> Result<C, ErrorKind>): (r: Result<C, string>)
    ensures r.Failure? ==>
      || r.error == "Failed to parse model response as JSON"
      || StartsWith(r.error, "Content validation failed: ")
      || StartsWith(r.error, "Content generation failed: ")
    ensures r.Success? ==>
      GenerateContent(Generator(topic, difficulty), analysisReply, parseAnalysis, ask, decode) == Success(r.value)
    ensures GenerateContent(Generator(topic, difficulty), analysisReply, parseAnalysis, ask, decode).Success? ==> r.Success?
  {
    match GenerateContent(Generator(topic, difficulty), analysisReply, parseAnalysis, ask, decode)
    case Success(content) => Success(content)
    case Failure(e) => ErrorMessageForms(e); Failure(ErrorMessage(e))
  }

  /** Every message is the fixed JSON text or starts with one of the two
      prefixes. */
  lemma ErrorMessageForms(e: ErrorKind)
    ensures || ErrorMessage(e) == "Failed to parse model response as JSON"
            || StartsWith(ErrorMessage(e), "Content validation failed: ")
            || StartsWith(ErrorMessage(e), "Content generation failed: ")
  {
    match e
    case JsonDecodeError(_) =>
    case ValidationError(msg) => assert (ValidationPrefix + msg)[..|ValidationPrefix|] == ValidationPrefix;
    case OtherError(msg) => assert (GenerationPrefix + msg)[..|GenerationPrefix|] == GenerationPrefix;
  }

  /** A content call that raises ends as the message its exception class
      selects; for any class other than the two named ones, that is
      `Content generation failed: ` followed by the exception's text. */
  lemma ForTopicModelCallRaises<C>(
    topic: string,
    difficulty: string,
    analysisReply: Result<string, string>,
    parseAnalysis: string -> Option<Analysis>,
    ask: (string, string, seq<string>) -> Result<string, ErrorKind>,
    decode: string -> Result<C, ErrorKind>,
    e: ErrorKind)
    requires ContentReply(Generator(topic, difficulty), analysisReply, parseAnalysis, ask) == Failure(e)
    ensures GenerateContentForTopic(topic, difficulty, analysisReply, parseAnalysis, ask, decode)
         == Failure(ErrorMessage(e))
    ensures e.OtherError? ==>
      GenerateContentForTopic(topic, difficulty, analysisReply, parseAnalysis, ask, decode)
         == Failure("Content generation failed: " + e.detail)
  {
  }

  /** Content that generation produced reaches the caller unchanged. */
  lemma ForTopicPassesContent<C>(
    topic: string,
    difficulty: string,
    analysisReply: Result<string, string>,
    parseAnalysis: string -> Option<Analysis>,
    ask: (string, string, seq<string>) -> Result<string, ErrorKind>,
    decode: string -> Result<C, ErrorKind>,
    c: C)
    requires GenerateContent(Generator(topic, difficulty), analysisReply, parseAnalysis, ask, decode) == Success(c)
    ensures GenerateContentForTopic(topic, difficulty, analysisReply, parseAnalysis, ask, decode) == Success(c)
  {
  }

  /** A decoding failure of neither named class, such as the `TypeError`
      of building the response from JSON that is not an object, ends as
      `Content generation failed: ` followed by its text. */
  lemma ForTopicOtherDecodeError<C>(
    topic: string,
    difficulty: string,
    analysisReply: Result<string, string>,
    parseAnalysis: string -> Option<Analysis>,
    ask: (string, string, seq<string>) -> Result<string, ErrorKind>,
    decode: string -> Result<C, ErrorKind>,
    text: string,
    detail: string)
    requires ContentReply(Generator(topic, difficulty), analysisReply, parseAnalysis, ask) == Success(text)
    requires decode(CleanFence(text)) == Failure(OtherError(detail))
    ensures GenerateContentForTopic(topic, difficulty, analysisReply, parseAnalysis, ask, decode)
         == Failure("Content generation failed: " + detail)
  {
  }

  /** A content reply is decoded after cleaning, and the caller gets the
      decoded content or the message of the decoding error. */
  lemma ForTopicDecodesCleanedReply<C>(
    topic: string,
    difficulty: string,
    analysisReply: Result<string, string>,
    parseAnalysis: string -> Option<Analysis>,
    ask: (string, string, seq<string>) -> Result<string, ErrorKind>,
    decode: string -> Result<C, ErrorKind>,
    text: string)
    requires ContentReply(Generator(topic, difficulty), analysisReply, parseAnalysis, ask) == Success(text)
    ensures GenerateContentForTopic(topic, difficulty, analysisReply, parseAnalysis, ask, decode)
         == decode(CleanFence(text)).MapFailure(ErrorMessage)
  {
  }

  /** A reply that does not decode as JSON ends as the one fixed message,
      whatever the decoder's own detail was. */
  lemma ForTopicJsonDecodeError<C>(
    topic: string,
    difficulty: string,
    analysisReply: Result<string, string>,
    parseAnalysis: string -> Option<Analysis>,
    ask: (string, string, seq<string>) -> Result<string, ErrorKind>,
    decode: string -> Result<C, ErrorKind>,
    text: string,
    detail: string)
    requires ContentReply(Generator(topic, difficulty), analysisReply, parseAnalysis, ask) == Success(text)
    requires decode(CleanFence(text)) == Failure(JsonDecodeError(detail))
    ensures GenerateContentForTopic(topic, difficulty, analysisReply, parseAnalysis, ask, decode)
         == Failure("Failed to parse model response as JSON")
  {
  }

  /** Decoding that ends in a validation error, which happens only when the
      repair made after a first validation failure fails validation again,
      ends as `Content validation failed: ` followed by that error's text. */
  lemma ForTopicValidationError<C>(
    topic: string,
    difficulty: string,
    analysisReply: Result<string, string>,
    parseAnalysis: string -> Option<Analysis>,
    ask: (string, string, seq<string>) -> Result<string, ErrorKind>,
    decode: string -> Result<C, ErrorKind>,
    text: string,
    detail: string)
    requires ContentReply(Generator(topic, difficulty), analysisReply, parseAnalysis, ask) == Success(text)
    requires decode(CleanFence(text)) == Failure(ValidationError(detail))
    ensures GenerateContentForTopic(topic, difficulty, analysisReply, parseAnalysis, ask, decode)
         == Failure("Content validation failed: " + detail)
  {
  }

  /** A failed analysis never surfaces as an error: with a JSON code block
      as the content reply to the fallback request, the caller gets exactly
      what decoding the block's stripped body gives, with any decoding error
      turned into its message. */
  lemma ForTopicAfterFailedAnalysis<C>(
    topic: string,
    difficulty: string,
    analysisReply: Result<string, string>,
    parseAnalysis: string -> Option<Analysis>,
    ask: (string, string, seq<string>) -> Result<string, ErrorKind>,
    decode: string -> Result<C, ErrorKind>,
    b: string)
    requires AnalysisFailed(analysisReply, parseAnalysis)
    requires ask(topic, difficulty, ["Important aspects of " + topic]) == Success(JsonFence + b + Fence)
    requires !StartsWith(b, Fence)
    ensures GenerateContentForTopic(topic, difficulty, analysisReply, parseAnalysis, ask, decode)
         == decode(Strip(b)).MapFailure(ErrorMessage)
  {
    GenerateContentJsonBlock(Generator(topic, difficulty), analysisReply, parseAnalysis, ask, decode, b);
  }
}

=== FILE: text.dfy ===
/** The handful of Python `str` operations the response cleanup relies on:
    `isspace`, `strip`, `startswith`, `endswith`, `split(sep, 1)` and
    `rsplit(sep, 1)`, on strings modelled as sequences of code points. */
module Text {
  import opened Wrappers

  /** The code points for which Python's `str.isspace()` holds: the ASCII
      controls TAB..CR and FS..US, SPACE, NEL, NO-BREAK SPACE, OGHAM SPACE
      MARK, the spaces U+2000..U+200A, the line and paragraph separators,
      NARROW NO-BREAK SPACE, MEDIUM MATHEMATICAL SPACE and IDEOGRAPHIC
      SPACE. */
  const PythonWhitespace: set<char> := {
    '\t', '\n', '\U{0B}', '\U{0C}', '\r',
    '\U{1C}', '\U{1D}', '\U{1E}', '\U{1F}', ' ',
    '\U{85}', '\U{A0}', '\U{1680}',
    '\U{2000}', '\U{2001}', '\U{2002}', '\U{2003}', '\U{2004}', '\U{2005}',
    '\U{2006}', '\U{2007}', '\U{2008}', '\U{2009}', '\U{200A}',
    '\U{2028}', '\U{2029}', '\U{202F}', '\U{205F}', '\U{3000}'
  }

  /** Python's `str.isspace()` on one code point. */
  predicate IsSpace(c: char) {
    c in PythonWhitespace
  }

  /** Every character of `s` is whitespace (vacuously true of ""). */
  predicate AllSpace(s: string) {
    forall i :: 0 <= i < |s| ==> IsSpace(s[i])
  }

  /** `s` neither begins nor ends with whitespace: what `strip` leaves. */
  predicate Trimmed(s: string) {
    s == [] || (!IsSpace(s[0]) && !IsSpace(s[|s| - 1]))
  }

  /** `s` begins with `p`: Python's `s.startswith(p)` and JavaScript's
      `s.startsWith(p)` alike. */
  predicate StartsWith(s: string, p: string) {
    |p| <= |s| && s[..|p|] == p
  }

  /** Python's `s.endswith(p)`. */
  predicate EndsWith(s: string, p: string) {
    |p| <= |s| && s[|s| - |p|..] == p
  }

  /** `sep` occurs in `s` starting at index `i`. */
  predicate OccursAt(s: string, sep: string, i: int) {
    0 <= i && i + |sep| <= |s| && s[i..i + |sep|] == sep
  }

  /** The index of the first non-whitespace character of `s` at or after
      `i`, or `|s|` when there is none. */
  function SkipSpace(s: string, i: nat): (k: nat)
    requires i <= |s|
    decreases |s| - i
    ensures i <= k <= |s|
    ensures forall j :: i <= j < k ==> IsSpace(s[j])
    ensures k == |s| || !IsSpace(s[k])
  {
    if i < |s| && IsSpace(s[i]) then SkipSpace(s, i + 1) else i
  }

  /** The index just after the last non-whitespace character of `s` before
      `e`, or 0 when there is none. */
  function SkipSpaceBack(s: string, e: nat): (k: nat)
    requires e <= |s|
    ensures k <= e
    ensures forall j :: k <= j < e ==> IsSpace(s[j])
    ensures k == 0 || !IsSpace(s[k - 1])
  {
    if e > 0 && IsSpace(s[e - 1]) then SkipSpaceBack(s, e - 1) else e
  }

  /** `SkipSpace` is determined by its contract: the whitespace run that
      starts at `i` ends at `k`. */
  lemma SkipSpaceIs(s: string, i: nat, k: nat)
    requires i <= k <= |s|
    requires forall j :: i <= j < k ==> IsSpace(s[j])
    requires k == |s| || !IsSpace(s[k])
    ensures SkipSpace(s, i) == k
  {
  }

  /** `SkipSpaceBack` is determined by its contract: the whitespace run
      that ends at `e` starts at `k`. */
  lemma SkipSpaceBackIs(s: string, e: nat, k: nat)
    requires k <= e <= |s|
    requires forall j :: k <= j < e ==> IsSpace(s[j])
    requires k == 0 || !IsSpace(s[k - 1])
    ensures SkipSpaceBack(s, e) == k
  {
  }

  /** Python's `s.strip()`: the text between the leading and the trailing
      whitespace; empty when `s` is all whitespace. */
  function Strip(s: string): (r: string)
    ensures Trimmed(r)
    ensures |r| <= |s|
  {
    var k := SkipSpace(s, 0);
    var e := SkipSpaceBack(s, |s|);
    if k < e then s[k..e] else []
  }

  /** `strip` removes whitespace only: the input is the result with an
      all-whitespace prefix `a` and an all-whitespace suffix `b`. */
  lemma StripSplits(s: string) returns (a: string, b: string)
    ensures s == a + Strip(s) + b
    ensures AllSpace(a) && AllSpace(b)
  {
    var k := SkipSpace(s, 0);
    var e := SkipSpaceBack(s, |s|);
    if k < e {
      a, b := s[..k], s[e..];
      assert s == a + s[k..e] + b;
    } else {
      // No non-whitespace character at all: everything is stripped.
      assert k == |s|;
      a, b := s, [];
      assert s == a + [] + b;
    }
  }

  /** `strip` is characterised by its result: whatever string `r` without
      surrounding whitespace is wrapped in whitespace `a` and `b`, stripping
      gives back `r`. */
  lemma StripUnique(a: string, r: string, b: string)
    requires AllSpace(a) && AllSpace(b)
    requires Trimmed(r)
    ensures Strip(a + r + b) == r
  {
    var s := a + r + b;
    if r == [] {
      SkipSpaceIs(s, 0, |s|);
    } else {
      SkipSpaceIs(s, 0, |a|);
      SkipSpaceBackIs(s, |s|, |a| + |r|);
      assert s[|a|..|a| + |r|] == r;
    }
  }

  /** A string with no whitespace at either end is left alone by `strip`. */
  lemma StripTrimmed(s: string)
    requires Trimmed(s)
    ensures Strip(s) == s
  {
    assert [] + s + [] == s;
    StripUnique([], s, []);
  }

  /** `strip` is idempotent. */
  lemma StripIdempotent(s: string)
    ensures Strip(Strip(s)) == Strip(s)
  {
    StripTrimmed(Strip(s));
  }

  /** Python's `s.find(sep, from)`: the lowest index at or after `from`
      where `sep` occurs, if any. */
  function FindFrom(s: string, sep: string, from: nat): (r: Option<nat>)
    decreases |s| - from
    ensures r.Some? ==> from <= r.value && OccursAt(s, sep, r.value)
    ensures r.Some? ==> forall j :: from <= j < r.value ==> !OccursAt(s, sep, j)
    ensures r.None? ==> forall j :: from <= j ==> !OccursAt(s, sep, j)
  {
    if from + |sep| > |s| then None
    else if OccursAt(s, sep, from) then Some(from)
    else FindFrom(s, sep, from + 1)
  }

  /** Python's `s.rfind(sep)` restricted to start indices below `n`: the
      highest such index where `sep` occurs, if any. */
  function RFindBelow(s: string, sep: string, n: nat): (r: Option<nat>)
    ensures r.Some? ==> r.value < n && OccursAt(s, sep, r.value)
    ensures r.Some? ==> forall j :: r.value < j < n ==> !OccursAt(s, sep, j)
    ensures r.None? ==> forall j :: j < n ==> !OccursAt(s, sep, j)
  {
    if n == 0 then None
    else if OccursAt(s, sep, n - 1) then Some(n - 1)
    else RFindBelow(s, sep, n - 1)
  }

  /** Python's `s.split(sep, 1)`: `[s]` when `sep` does not occur, otherwise
      the text before and after its first occurrence. Python refuses an
      empty separator. */
  function SplitOnce(s: string, sep: string): (r: seq<string>)
    requires |sep| > 0
    ensures |r| == 1 || |r| == 2
    ensures |r| == 1 ==> r[0] == s && forall j :: !OccursAt(s, sep, j)
    ensures |r| == 2 ==> s == r[0] + sep + r[1]
    ensures |r| == 2 ==> forall j :: j < |r[0]| ==> !OccursAt(s, sep, j)
    ensures StartsWith(s, sep) ==> r == ["", s[|sep|..]]
  {
    match FindFrom(s, sep, 0)
    case None => [s]
    case Some(i) =>
      assert s == s[..i] + sep + s[i + |sep|..];
      assert StartsWith(s, sep) ==> OccursAt(s, sep, 0);
      [s[..i], s[i + |sep|..]]
  }

  /** Python's `s.rsplit(sep, 1)`: `[s]` when `sep` does not occur,
      otherwise the text before and after its last occurrence. */
  function RSplitOnce(s: string, sep: string): (r: seq<string>)
    requires |sep| > 0
    ensures |r| == 1 || |r| == 2
    ensures |r| == 1 ==> r[0] == s && forall j :: !OccursAt(s, sep, j)
    ensures |r| == 2 ==> s == r[0] + sep + r[1]
    ensures |r| == 2 ==> forall j :: |r[0]| < j ==> !OccursAt(s, sep, j)
    ensures EndsWith(s, sep) ==> r == [s[..|s| - |sep|], ""]
  {
    assert EndsWith(s, sep) ==> OccursAt(s, sep, |s| - |sep|);
    match RFindBelow(s, sep, |s| + 1)
    case None => [s]
    case Some(i) =>
      assert s == s[..i] + sep + s[i + |sep|..];
      [s[..i], s[i + |sep|..]]
  }
}

=== FILE: wrappers.dfy ===
/** An optional value and a value-or-error result, shared by the model. */
module Wrappers {

  /** A value that may be absent: a missing environment variable, an
      `undefined`/`null` token, a dictionary key that is not there. */
  datatype Option<+T> = None | Some(value: T) {

    /** The wrapped value, or `default` when there is none. */
    function GetOr(default: T): T {
      match this
      case Some(v) => v
      case None => default
    }
  }

  /** The outcome of a step that may raise: `Success` carries the value,
      `Failure` carries what was raised. */
  datatype Result<+R, +E> = Success(value: R) | Failure(error: E) {

    /** Keeps a success, rewrites the error of a failure. */
    function MapFailure<NewE>(rewrap: E -> NewE): Result<R, NewE> {
      match this
      case Success(v) => Success(v)
      case Failure(e) => Failure(rewrap(e))
    }
  }
}
